=== FILE: README.md ===
# AI video analyzer: session, ingestion and answer logic

A Dafny model of the logic inside `app.py` of the AI video analyzer, a
Streamlit page that uploads a video to a hosted multimodal model, lets the
user chat about it, and falls back to a web search when the model's answer is
too short. The two remote services (the model service and the search
provider) are not modelled. Their answers are inputs: an `Outcome` that
either returns a value or raises with a message.

Modules:

- `Services` (`services.dfy`): `Option`, `Outcome`, the model service's file
  handle `File` (name and state name), search result records `Hit`, and the
  function types `Agent` and `SearchProvider`.
- `Text` (`text.dfy`): Python's `str.strip()` over the `str.isspace()`
  character set, and the slice `s[:n]`.
- `SessionState` (`session_state.dfy`): the four session keys. Each is a `Slot`
  that is `Missing` or `Present`, so "set only missing keys" and `clear()` can
  be stated. Also initialisation and the one-hour idle timeout.
- `Ingestion` (`ingestion.dfy`): `process_video`. It has the idempotence
  short-circuit, the upload, and the polling loop over the answers of
  `get_file`. The session changes only when the file ends `ACTIVE`.
- `WebSearch` (`web_search.dfy`): `perform_web_search`. It is a fold of the
  result records into Markdown entries after a fixed header.
- `Responder` (`responder.dfy`): `generate_response` and its quality gate.
  A reply is kept only when its stripped length is at least 50.
- `Script` (`script.dfy`): one run of the page script. It initialises,
  checks the timeout, processes a new video, answers the prompt and serves
  the search button. The chat history is append-only.

Time is a `real` number of seconds, and each script run uses one reading
of the clock, `now` (see "## Left out").

## Model

| member | source | states |
|---|---|---|
| Text.Strip | app.py:142 | The stripped reply is the reply with one whitespace run cut from each end. It is empty exactly when the reply is all whitespace; otherwise it starts and ends with a non-space. It is never longer than the reply. |
| Text.StripPadding | app.py:142 | Adding whitespace before and after a text does not change what stripping returns. |
| Text.StripIdempotent | app.py:142 | Stripping an already stripped text changes nothing. |
| Text.Prefix | app.py:156 | `s[:n]` is a prefix of `s` of length `min(n, len(s))`. |
| SessionState.Initialize | app.py:61-70 | Afterwards all four keys exist. Keys that already existed keep their values. Missing keys get an empty history, no video file, no video name and the current time. |
| SessionState.InitializeIdempotent | app.py:61-72 | Running the initialisation again, at any later time, changes nothing. |
| SessionState.InitializeCleared | app.py:61-70 | Initialising a cleared store gives exactly a fresh session. |
| SessionState.InitializeKeepsVideoReady | app.py:61-70 | Initialisation keeps the rule that a stored handle is an ACTIVE one. |
| SessionState.CheckTimeout | app.py:94-99 | The store is cleared and the run restarts exactly when more than 3600 s passed since the last activity. Otherwise only the activity time moves to now. |
| SessionState.ExactLimitDoesNotExpire | app.py:96 | A gap of exactly 3600 s does not clear the store, because the comparison is strict. |
| SessionState.FreshDoesNotExpire | app.py:94-99 | A session initialised at `now` is not expired at `now`. |
| WebSearch.PerformWebSearch | app.py:148-159 | A provider exception gives `"Search error: "` followed by its message. A successful search starts with the header line. |
| WebSearch.EntryShape | app.py:156 | Each entry is the fixed Markdown frame around title, link and a body prefix. That prefix has `min(len(body), 200)` characters, so the body part is at most 200 characters. |
| WebSearch.EntriesLayout | app.py:154-157 | The fold produces exactly one entry per result, in provider order, back to back, and nothing else. |
| WebSearch.SearchResultLayout | app.py:148-157 | A successful search's text is the header followed by the entries of the returned results, one each and in order, and nothing more. |
| Responder.GenerateResponse | app.py:135-146 | An agent exception gives `"An error occurred: "` followed by its message. A reply passing the gate is returned unchanged. Any other reply is replaced by the web search for the same query. |
| Responder.AdequateByStrippedLength | app.py:142 | The emptiness test is subsumed: a reply passes exactly when its stripped length is at least 50. |
| Responder.AdequateIgnoresPadding | app.py:142 | Surrounding whitespace never changes the gate's verdict. |
| Responder.ShortReplyFallsBack | app.py:142-143 | A missing reply or one shorter than 50 characters yields the search text for the query. |
| Responder.FallbackMayEqualReply | app.py:142-144 | The converse of the gate fails: with no search results, the fallback text is the bare header, which is itself a too-short reply. |
| Ingestion.Poll | app.py:114-117 | Polling stops only on a state other than PROCESSING, on a raising status request, or when the given answers run out. Every state seen before the stop was PROCESSING, and the final handle is the last one seen. |
| Ingestion.WaitUntilSettled | app.py:114-117 | The source's while loop makes the same requests and ends the same way as `Poll`. |
| Ingestion.ProcessVideo | app.py:101-129 | Same name with a stored handle: returns True with no upload, no polling and the session unchanged. Otherwise the result is True exactly when the final polled state is ACTIVE. Then the handle becomes that final handle and the name becomes the file name. Non-ACTIVE endings and exceptions return False and leave the session unchanged. |
| Ingestion.IngestIdempotent | app.py:104-107 | After a successful ingestion, submitting the same file again uploads nothing and leaves the session unchanged, whatever the service would answer. |
| Ingestion.ProcessVideoKeepsVideoReady | app.py:119-126 | Only a handle reported ACTIVE is ever stored in the session. |
| Script.Record | app.py:208 | Appending an exchange adds exactly one entry at the end and keeps the earlier ones. |
| Script.HandlePrompt | app.py:199-209 | A non-empty prompt appends exactly one turn with the prompt and its generated response. A missing or empty prompt changes nothing. No other key changes. |
| Script.HandleSearch | app.py:211-222 | With the button pressed and a non-empty history, it searches the last turn's user text. It then appends one turn labelled `"🔍 Web search for: "` plus that text, with the search result. Otherwise nothing changes. |
| Script.Interact | app.py:173-225 | With no uploaded video nothing changes. A video whose name matches the stored name, with a stored handle, is not processed again, so both video keys stay as they were. A new video goes through `process_video`, and unless the run is still waiting, the video keys end as that call left them. The run waits exactly when the upload is still processing; a waiting run leaves the session unchanged. Every run keeps all keys set and never restarts. |
| Script.RunScript | app.py:161-225 | A run restarts with a cleared store exactly when the idle limit is exceeded. Otherwise it ends with every key set and the activity time equal to now. |
| Script.GuardPrecedesIdempotence | app.py:173-177 | The script's own guard means `process_video` never takes its idempotence short-circuit when the script calls it. |
| Script.HistoryAppendOnly | app.py:199-222 | In a run that does not restart, the old history is a prefix of the new one, which has at most two more turns. |
| Script.PromptAppendsOneTurn | app.py:199-208 | A prompt alone appends exactly one turn after the existing history. The turn holds the prompt and the response generated with the video handle the session holds after ingestion. |
| Script.SearchAppendsOneTurn | app.py:211-222 | The search button alone, with a non-empty history, appends exactly one turn: the last user text with the search label, and the search result for that text. |
| Script.SearchFollowsPrompt | app.py:199-222 | With a prompt and the search button in one run, the prompt's turn comes first. The search then uses that prompt, so exactly two turns are appended, the second labelled with the prompt and holding its search result. |
| Script.RunKeepsVideoReady | app.py:161-225 | No run ever stores a handle that is not ACTIVE. |
| Script.RerunAfterExpiry | app.py:94-99 | The run after a timeout starts from a fresh session at its own time and does not expire again. |

## Notes on the code

- The formatting loop at `app.py:155-156` formats every record the provider
  returns. Only the `max_results=3` argument to the provider limits the
  count, so the model states "one entry per returned record" and makes no
  claim of at most three entries.
- The quality gate decides which branch is taken, not what text comes back.
  A too-short reply can equal the fallback text: a search with no results
  returns the bare header (`Responder.FallbackMayEqualReply`).
- On timeout, `check_session_timeout` clears the store and restarts the
  script. The fresh session comes from the restarted run's initialisation
  (`Script.RerunAfterExpiry`), not from the timeout check itself.
- `process_video` returns only True or False. The model's `Status` also
  records why: already processed, active, another final state, an exception,
  or still processing. `Returns()` gives the source's boolean.

## Left out

- Rendering: page configuration, CSS, titles, spinners, success and error
  banners, the video player, columns, containers and the auto-scroll
  script. These are presentation only.
- Loading the API key from the environment and building the cached agent
  (`initialize_agent`). This is setup code around foreign libraries.
- The temporary-file write and its removal in `finally`, and the one-second
  `time.sleep` between status requests. These are filesystem and timing
  effects. Staging errors count as raising uploads.
- The bodies of `upload_file`, `get_file`, the agent's `run` and the search
  provider's `text`. Their results are inputs.
- The cap of three search results. The provider is asked for three, and the
  model does not assume it obeys.
- Result records that lack `title`, `body` or `href`. These would raise
  `KeyError` inside the search's `try`. Records always carry all three here.
- Ingestion.Poll: the source polls with no bound. The model stops when the
  given list of service answers runs out and reports `Unsettled`.
  Termination of the real loop is not claimed.
- Ingestion.ProcessVideo: requires an initialised store, which the script
  guarantees by initialising at the top of every run. A read of a missing
  key would raise inside the `try` and return False; that path is not
  modelled.
- Script.RerunAfterExpiry: the restarted run is given the same user events.
  Streamlit's handling of widget values across `clear()` is not modelled.
- Floating-point clock values: time is a real number.
- One clock reading per run: the source calls `time.time()` separately at
  `app.py:70`, `96` and `99`. So the `last_activity` stored at line 99 is a
  slightly later reading than the one compared at line 96. The model uses a
  single `now` for all three.

=== FILE: ingestion.dfy ===
/** `process_video`: upload a video to the model service once, wait while the
    service reports it `PROCESSING`, and keep its handle in the session only
    when it ends `ACTIVE`.  The service is given as the outcome of the upload
    and the outcomes of the successive status requests (`get_file`). */
module Ingestion {
  import opened Services
  import opened SessionState

  /** What the model service answers: the upload call, then each status request
      in order.  A finite list stands for the service's behaviour; when it runs
      out while the file is still processing, the source would keep polling. */
  datatype Remote = Remote(upload: Outcome<File>, polls: seq<Outcome<File>>)

  /** How waiting for a file ended, with the number of status requests made:
      a state other than `PROCESSING` was seen, a status request raised, or
      the given answers ran out while the file was still processing. */
  datatype Wait = Settled(file: File, used: nat) | PollRaised(message: string, used: nat) | Unsettled(file: File)

  /** The uploaded file `f` and the first `k` status answers all report the
      file as processing. */
  predicate ProcessingThrough(f: File, polls: seq<Outcome<File>>, k: nat)
    requires k <= |polls|
  {
    && f.state == PROCESSING
    && forall j :: 0 <= j < k ==> polls[j].Returned? && polls[j].value.state == PROCESSING
  }

  /** The handle held after `k` status requests. */
  function LastSeen(f: File, polls: seq<Outcome<File>>, k: nat): File
    requires k <= |polls|
    requires k > 0 ==> polls[k - 1].Returned?
  {
    if k == 0 then f else polls[k - 1].value
  }

  /** Counts `k` more status requests made before the wait started. */
  function Later(w: Wait, k: nat): Wait {
    match w
    case Settled(f, n) => Settled(f, n + k)
    case PollRaised(m, n) => PollRaised(m, n + k)
    case Unsettled(f) => Unsettled(f)
  }

  /** The loop `while file.state.name == "PROCESSING": file = get_file(file.name)`,
      starting from the uploaded handle `f`. */
  function Poll(f: File, polls: seq<Outcome<File>>): (w: Wait)
    decreases |polls|
    ensures w.Settled? ==>
      && w.used <= |polls|
      && (w.used > 0 ==> ProcessingThrough(f, polls, w.used - 1) && polls[w.used - 1].Returned?)
      && w.file == LastSeen(f, polls, w.used)
      && w.file.state != PROCESSING
    ensures w.PollRaised? ==>
      && 1 <= w.used <= |polls|
      && ProcessingThrough(f, polls, w.used - 1)
      && polls[w.used - 1] == Raised(w.message)
    ensures w.Unsettled? ==>
      && ProcessingThrough(f, polls, |polls|)
      && w.file == (if |polls| == 0 then f else polls[|polls| - 1].value)
  {
    if f.state != PROCESSING then Settled(f, 0)
    else if |polls| == 0 then Unsettled(f)
    else match polls[0]
      case Raised(m) => PollRaised(m, 1)
      case Returned(g) =>
        var rest := polls[1..];
        var w := Poll(g, rest);
        assert forall j :: 1 <= j <= |rest| ==> polls[j] == rest[j - 1];
        Later(w, 1)
  }

  /** The polling loop as the source writes it; it makes the same requests and
      ends the same way as `Poll`. */
  method WaitUntilSettled(f: File, polls: seq<Outcome<File>>) returns (w: Wait)
    ensures w == Poll(f, polls)
  {
    var current := f;
    var i := 0;
    while current.state == PROCESSING
      invariant i <= |polls|
      invariant Poll(f, polls) == Later(Poll(current, polls[i..]), i)
      decreases |polls| - i
    {
      if i == |polls| {
        return Unsettled(current);
      }
      match polls[i]
      case Raised(m) =>
        return PollRaised(m, i + 1);
      case Returned(g) =>
        assert polls[i..][1..] == polls[i + 1..];
        current := g;
        i := i + 1;
    }
    w := Settled(current, i);
  }

  /** The outcome of `process_video`. */
  datatype Status =
    | Cached                      // the same file was already processed
    | Activated(file: File)       // the service reported the file ACTIVE
    | NotActive(file: File)       // the service ended in another state
    | Failed(message: string)     // the upload or a status request raised
    | StillProcessing(file: File) // the service has not settled yet
  {
    /** The value `process_video` returns; `None` while it is still polling. */
    function Returns(): Option<bool> {
      match this
      case Cached => Some(true)
      case Activated(_) => Some(true)
      case NotActive(_) => Some(false)
      case Failed(_) => Some(false)
      case StillProcessing(_) => None
    }
  }

  /** The outcome, the session afterwards, whether an upload was attempted
      (it may have raised) and how many status requests were made. */
  datatype Ingest = Ingest(status: Status, session: Session, attempted: bool, polled: nat)

  /** The idempotence test: the session already holds a handle for a video of
      this name. */
  predicate AlreadyProcessed(s: Session, fileName: string)
    requires Initialized(s)
  {
    s.uploadedVideoName.value == Some(fileName) && s.processedVideoFile.value.Some?
  }

  /** `process_video(file)` for a file called `fileName`. */
  function ProcessVideo(s: Session, fileName: string, remote: Remote): (r: Ingest)
    requires Initialized(s)
    ensures r.status.Cached? <==> AlreadyProcessed(s, fileName)
    ensures r.status.Cached? ==> r.session == s && !r.attempted && r.polled == 0
    ensures !r.status.Cached? ==> r.attempted
    ensures r.status.Returns() == Some(true) <==> r.status.Cached? || r.status.Activated?
    ensures r.status.Activated? ==>
      && r.status.file.state == ACTIVE
      && r.session == s.(processedVideoFile := Present(Some(r.status.file)),
                         uploadedVideoName := Present(Some(fileName)))
    ensures !r.status.Activated? ==> r.session == s
    ensures r.status.NotActive? ==>
      r.status.file.state != ACTIVE && r.status.file.state != PROCESSING
    ensures r.status.Activated? || r.status.NotActive? ==>
      && remote.upload.Returned?
      && r.polled <= |remote.polls|
      && (r.polled > 0 ==> ProcessingThrough(remote.upload.value, remote.polls, r.polled - 1)
                           && remote.polls[r.polled - 1].Returned?)
      && r.status.file == LastSeen(remote.upload.value, remote.polls, r.polled)
    ensures r.status.Failed? ==>
      || (remote.upload == Raised(r.status.message) && r.polled == 0)
      || (&& remote.upload.Returned?
          && 1 <= r.polled <= |remote.polls|
          && ProcessingThrough(remote.upload.value, remote.polls, r.polled - 1)
          && remote.polls[r.polled - 1] == Raised(r.status.message))
    ensures r.status.StillProcessing? ==>
      && remote.upload.Returned?
      && ProcessingThrough(remote.upload.value, remote.polls, |remote.polls|)
      && r.polled == |remote.polls|
  {
    if AlreadyProcessed(s, fileName) then Ingest(Cached, s, false, 0)
    else match remote.upload
      case Raised(m) => Ingest(Failed(m), s, true, 0)
      case Returned(f) =>
        match Poll(f, remote.polls)
        case Unsettled(g) => Ingest(StillProcessing(g), s, true, |remote.polls|)
        case PollRaised(m, n) => Ingest(Failed(m), s, true, n)
        case Settled(g, n) =>
          if g.state == ACTIVE then
            var s' := s.(processedVideoFile := Present(Some(g)), uploadedVideoName := Present(Some(fileName)));
            Ingest(Activated(g), s', true, n)
          else Ingest(NotActive(g), s, true, n)
  }

  /** Submitting the same file again after it became active uploads nothing,
      makes no status request and leaves the session as it was, whatever the
      service would answer. */
  lemma IngestIdempotent(s: Session, fileName: string, first: Remote, second: Remote)
    requires Initialized(s)
    requires ProcessVideo(s, fileName, first).status.Returns() == Some(true)
    ensures var s1 := ProcessVideo(s, fileName, first).session;
      && Initialized(s1)
      && ProcessVideo(s1, fileName, second) == Ingest(Cached, s1, false, 0)
  {
  }

  /** Processing a video keeps the session's invariant that a stored handle is
      one the service reported ready. */
  lemma ProcessVideoKeepsVideoReady(s: Session, fileName: string, remote: Remote)
    requires Initialized(s) && VideoReady(s)
    ensures VideoReady(ProcessVideo(s, fileName, remote).session)
  {
  }
}

=== FILE: responder.dfy ===
/** `generate_response`: ask the agent about the session video and keep its
    reply only when it passes the length-based quality gate; otherwise answer
    with a web search. */
module Responder {
  import opened Services
  import opened Text
  import opened WebSearch

  const PromptPrefix: string := "Use the uploaded video content and external knowledge to answer the question: "
  const ErrorPrefix: string := "An error occurred: "
  /** Shortest acceptable reply, in characters after stripping whitespace. */
  const MinAnswerLength: nat := 50

  /** The prompt sent to the agent for the user's question. */
  function Prompt(query: string): string {
    PromptPrefix + query
  }

  /** The quality gate: a reply is kept when it is present, non-empty and at
      least 50 characters long once surrounding whitespace is stripped. */
  predicate Adequate(reply: Option<string>) {
    reply.Some? && |reply.value| > 0 && |Strip(reply.value)| >= MinAnswerLength
  }

  /** `generate_response(query)`, with the session's video slot `video`, the
      agent and the search provider as inputs. */
  function GenerateResponse(query: string, video: Option<File>, agent: Agent, provider: SearchProvider): (r: string)
    ensures agent(Prompt(query), video).Raised? ==>
      r == ErrorPrefix + agent(Prompt(query), video).message
    ensures agent(Prompt(query), video).Returned? && Adequate(agent(Prompt(query), video).value) ==>
      r == agent(Prompt(query), video).value.value
    ensures agent(Prompt(query), video).Returned? && !Adequate(agent(Prompt(query), video).value) ==>
      r == PerformWebSearch(query, provider)
  {
    match agent(Prompt(query), video)
    case Raised(m) => ErrorPrefix + m
    case Returned(reply) =>
      if !Adequate(reply) then PerformWebSearch(query, provider) else reply.value
  }

  /** The emptiness test is subsumed by the length test: a reply is adequate
      exactly when its stripped length reaches 50. */
  lemma AdequateByStrippedLength(text: string)
    ensures Adequate(Some(text)) <==> |Strip(text)| >= MinAnswerLength
  {
  }

  /** Whitespace around a reply never changes the verdict of the gate. */
  lemma AdequateIgnoresPadding(pre: string, text: string, post: string)
    requires AllSpace(pre) && AllSpace(post)
    ensures Adequate(Some(pre + text + post)) == Adequate(Some(text))
  {
    StripPadding(pre, text, post);
  }

  /** A reply shorter than 50 characters (such as a ten-character answer) is
      replaced by the web-search text for the same query. */
  lemma ShortReplyFallsBack(query: string, video: Option<File>, agent: Agent, provider: SearchProvider)
    requires agent(Prompt(query), video).Returned?
    requires var reply := agent(Prompt(query), video).value;
      reply.None? || |reply.value| < MinAnswerLength
    ensures GenerateResponse(query, video, agent, provider) == PerformWebSearch(query, provider)
  {
  }

  /** The reply is returned unchanged whenever it passes the gate, but the
      converse fails: when the search finds nothing, its text is the bare
      header, which is also a possible too-short reply. */
  lemma FallbackMayEqualReply(query: string, video: Option<File>, agent: Agent, provider: SearchProvider)
    requires agent(Prompt(query), video) == Returned(Some(Header))
    requires provider(query, MaxResults) == Returned([])
    ensures !Adequate(Some(Header))
    ensures GenerateResponse(query, video, agent, provider) == Header
  {
  }
}

=== FILE: script.dfy ===
/** One run of the page script, from the top of the file to the bottom, as
    Streamlit performs it on every user interaction: initialise the store,
    check the idle timeout, process a newly uploaded video, answer a chat
    prompt and serve the web-search button, appending to the chat history. */
module Script {
  import opened Services
  import opened SessionState
  import opened WebSearch
  import opened Responder
  import opened Ingestion

  /** The user-visible label of a manual web-search turn. */
  const SearchLabel: string := "\U{1F50D} Web search for: "

  /** Appends one exchange; earlier exchanges are untouched. */
  function Record(history: seq<Turn>, user: string, ai: string): (r: seq<Turn>)
    ensures |r| == |history| + 1
    ensures r[..|history|] == history
    ensures r[|history|] == Turn(user, ai)
  {
    history + [Turn(user, ai)]
  }

  /** Handling of the chat input: a non-empty prompt is answered and the
      exchange appended; no prompt (or an empty one) changes nothing. */
  function HandlePrompt(s: Session, prompt: Option<string>, agent: Agent, provider: SearchProvider): (r: Session)
    requires Initialized(s)
    ensures Initialized(r)
    ensures r == s.(chatHistory := r.chatHistory)
    ensures prompt.None? || prompt.value == [] ==> r == s
    ensures prompt.Some? && prompt.value != [] ==>
      r.chatHistory.value ==
        s.chatHistory.value + [Turn(prompt.value, GenerateResponse(prompt.value, s.processedVideoFile.value, agent, provider))]
  {
    if prompt.Some? && prompt.value != [] then
      var response := GenerateResponse(prompt.value, s.processedVideoFile.value, agent, provider);
      s.(chatHistory := Present(Record(s.chatHistory.value, prompt.value, response)))
    else s
  }

  /** Handling of the web-search button: with a pressed button and a non-empty
      history, the last exchange's user text is searched and one labelled
      exchange appended; otherwise nothing changes. */
  function HandleSearch(s: Session, pressed: bool, provider: SearchProvider): (r: Session)
    requires Initialized(s)
    ensures Initialized(r)
    ensures r == s.(chatHistory := r.chatHistory)
    ensures !pressed || s.chatHistory.value == [] ==> r == s
    ensures pressed && s.chatHistory.value != [] ==>
      var h := s.chatHistory.value;
      var last := h[|h| - 1].user;
      r.chatHistory.value == h + [Turn(SearchLabel + last, PerformWebSearch(last, provider))]
  {
    var h := s.chatHistory.value;
    if pressed && |h| > 0 then
      var last := h[|h| - 1].user;
      s.(chatHistory := Present(Record(h, SearchLabel + last, PerformWebSearch(last, provider))))
    else s
  }

  /** What the user did in this interaction: the name of the uploaded video
      (if any), the chat prompt (if any) and whether the search button was
      pressed; and how the external services answer. */
  datatype Events = Events(video: Option<string>, prompt: Option<string>, searchPressed: bool)
  datatype Backends = Backends(remote: Remote, agent: Agent, provider: SearchProvider)

  /** How the run ended: it reached the end of the script, it cleared the
      store and restarted, or it is still waiting for the video service. */
  datatype End = Completed | Restarted | Waiting
  datatype Run = Run(end: End, session: Session)

  /** The interactive part of the script (from the video guard on), on an
      initialised store. */
  function Interact(s: Session, ev: Events, sv: Backends): (r: Run)
    requires Initialized(s)
    ensures Initialized(r.session)
    ensures !r.end.Restarted?
    ensures ev.video.None? ==> r == Run(Completed, s)
    ensures ev.video.Some? && AlreadyProcessed(s, ev.video.value) ==>
      && r.end.Completed?
      && r.session.processedVideoFile == s.processedVideoFile
      && r.session.uploadedVideoName == s.uploadedVideoName
    ensures r.end.Waiting? ==> r.session == s
    ensures r.end.Waiting? <==>
      ev.video.Some? && ProcessVideo(s, ev.video.value, sv.remote).status.StillProcessing?
    ensures ev.video.Some? && !AlreadyProcessed(s, ev.video.value) && !r.end.Waiting? ==>
      var p := ProcessVideo(s, ev.video.value, sv.remote).session;
      && r.session.processedVideoFile == p.processedVideoFile
      && r.session.uploadedVideoName == p.uploadedVideoName
  {
    if ev.video.None? then Run(Completed, s)
    else
      var name := ev.video.value;
      var s1 :=
        if s.uploadedVideoName.value != Some(name) || s.processedVideoFile.value.None? then
          ProcessVideo(s, name, sv.remote)
        else Ingest(Cached, s, false, 0);
      if s1.status.StillProcessing? then Run(Waiting, s1.session)
      else
        var s2 := HandlePrompt(s1.session, ev.prompt, sv.agent, sv.provider);
        Run(Completed, HandleSearch(s2, ev.searchPressed, sv.provider))
  }

  /** One run of the script at time `now`. */
  function RunScript(s: Session, now: real, ev: Events, sv: Backends): (r: Run)
    ensures r.end.Restarted? <==>
      s.lastActivity.Present? && now - s.lastActivity.value > IdleLimit
    ensures r.end.Restarted? ==> r.session == Cleared
    ensures !r.end.Restarted? ==> Initialized(r.session) && r.session.lastActivity == Present(now)
  {
    var s0 := Initialize(s, now);
    match CheckTimeout(s0, now)
    case Expired => Run(Restarted, Cleared)
    case Touched(s1) => Interact(s1, ev, sv)
  }

  /** The script's own guard makes the idempotence test inside
      `process_video` unreachable: a video is only processed when it is new
      or has no handle yet. */
  lemma GuardPrecedesIdempotence(s: Session, ev: Events, sv: Backends)
    requires Initialized(s) && ev.video.Some?
    requires s.uploadedVideoName.value != Some(ev.video.value) || s.processedVideoFile.value.None?
    ensures !ProcessVideo(s, ev.video.value, sv.remote).status.Cached?
  {
  }

  /** The chat history only grows, by at most the two exchanges of one run. */
  lemma HistoryAppendOnly(s: Session, now: real, ev: Events, sv: Backends)
    requires Initialized(s)
    ensures var r := RunScript(s, now, ev, sv);
      !r.end.Restarted? ==>
        var h, h' := s.chatHistory.value, r.session.chatHistory.value;
        |h| <= |h'| <= |h| + 2 && h'[..|h|] == h
  {
  }

  /** Every run keeps the session's invariant that a stored video handle is
      one the service reported ready. */
  lemma RunKeepsVideoReady(s: Session, now: real, ev: Events, sv: Backends)
    requires VideoReady(s)
    ensures VideoReady(RunScript(s, now, ev, sv).session)
  {
  }

  /** After a timeout the restarted run begins from a fresh session created at
      its own time and is not itself expired. */
  lemma RerunAfterExpiry(s: Session, now: real, later: real, ev: Events, sv: Backends)
    requires RunScript(s, now, ev, sv).end.Restarted?
    ensures var r := RunScript(RunScript(s, now, ev, sv).session, later, ev, sv);
      && !r.end.Restarted?
      && r == Interact(Fresh(later), ev, sv)
  {
  }

  /** A prompt in a run that reaches the chat appends exactly the exchange of
      that prompt and its answer, after everything that was there. */
  lemma PromptAppendsOneTurn(s: Session, now: real, ev: Events, sv: Backends)
    requires Initialized(s)
    requires ev.video.Some? && ev.prompt.Some? && ev.prompt.value != [] && !ev.searchPressed
    requires RunScript(s, now, ev, sv).end.Completed?
    ensures var h, h' := s.chatHistory.value, RunScript(s, now, ev, sv).session.chatHistory.value;
      && |h'| == |h| + 1
      && h'[..|h|] == h
      && var r := RunScript(s, now, ev, sv).session;
         h'[|h|] == Turn(ev.prompt.value, GenerateResponse(ev.prompt.value, r.processedVideoFile.value, sv.agent, sv.provider))
  {
  }

  /** The search button alone appends exactly one exchange: the last user
      text, labelled, with the search result for it. */
  lemma SearchAppendsOneTurn(s: Session, now: real, ev: Events, sv: Backends)
    requires Initialized(s) && s.chatHistory.value != []
    requires ev.video.Some? && (ev.prompt.None? || ev.prompt.value == []) && ev.searchPressed
    requires RunScript(s, now, ev, sv).end.Completed?
    ensures var h, h' := s.chatHistory.value, RunScript(s, now, ev, sv).session.chatHistory.value;
      var last := h[|h| - 1].user;
      h' == h + [Turn(SearchLabel + last, PerformWebSearch(last, sv.provider))]
  {
  }

  /** The prompt is recorded before the search button is served, so a search
      in the same run searches for the prompt just asked. */
  lemma SearchFollowsPrompt(s: Session, now: real, ev: Events, sv: Backends)
    requires Initialized(s)
    requires ev.video.Some? && ev.prompt.Some? && ev.prompt.value != [] && ev.searchPressed
    requires RunScript(s, now, ev, sv).end.Completed?
    ensures var h, h' := s.chatHistory.value, RunScript(s, now, ev, sv).session.chatHistory.value;
      && |h'| == |h| + 2
      && h'[..|h|] == h
      && h'[|h|].user == ev.prompt.value
      && h'[|h| + 1] == Turn(SearchLabel + ev.prompt.value, PerformWebSearch(ev.prompt.value, sv.provider))
  {
  }
}

=== FILE: services.dfy ===
/** Shapes of the values exchanged with the two remote services the application
    calls: the multimodal model service (file upload, file status, inference) and
    the web-search provider.  The services themselves are not modelled; their
    answers are inputs to the operations of the other modules. */
module Services {

  /** Python's `None` or a value. */
  datatype Option<+T> = None | Some(value: T)

  /** The outcome of a call that may raise: either the value it returned or the
      text of the exception it raised (`str(e)`). */
  datatype Outcome<+T> = Returned(value: T) | Raised(message: string)

  /** State names reported by the model service for an uploaded file. */
  const PROCESSING: string := "PROCESSING"
  const ACTIVE: string := "ACTIVE"

  /** A file handle of the model service: its resource name and the name of
      its current state (`file.state.name`). */
  datatype File = File(name: string, state: string)

  /** One web-search result record: `{title, body, href}`. */
  datatype Hit = Hit(title: string, body: string, href: string)

  /** The chat agent: given a prompt and the list of videos (here the one
      session video slot, possibly `None`) it returns the reply's `content`,
      which may be `None`, or raises. */
  type Agent = (string, Option<File>) -> Outcome<Option<string>>

  /** The search provider: `text(query, max_results)` returns result records
      in provider order, or raises. */
  type SearchProvider = (string, nat) -> Outcome<seq<Hit>>
}

=== FILE: session_state.dfy ===
/** The per-tab session store (`st.session_state`) restricted to the four keys
    the application uses, with its initialisation and idle timeout. */
module SessionState {
  import opened Services

  /** One key of the session store: absent, or present with a value (which may
      itself be Python's `None`). */
  datatype Slot<+T> = Missing | Present(value: T)

  /** One chat exchange, the dictionary `{"user": ..., "ai": ...}`. */
  datatype Turn = Turn(user: string, ai: string)

  /** The four keys `chat_history`, `processed_video_file`,
      `uploaded_video_name` and `last_activity` (seconds since the epoch). */
  datatype Session = Session(
    chatHistory: Slot<seq<Turn>>,
    processedVideoFile: Slot<Option<File>>,
    uploadedVideoName: Slot<Option<string>>,
    lastActivity: Slot<real>)

  /** Inactivity, in seconds, after which the session is discarded. */
  const IdleLimit: real := 3600.0

  /** The store after `st.session_state.clear()`: every key absent. */
  const Cleared: Session := Session(Missing, Missing, Missing, Missing)

  /** A brand-new session created at time `now`. */
  function Fresh(now: real): Session {
    Session(Present([]), Present(None), Present(None), Present(now))
  }

  /** Every key has been set. */
  predicate Initialized(s: Session) {
    && s.chatHistory.Present?
    && s.processedVideoFile.Present?
    && s.uploadedVideoName.Present?
    && s.lastActivity.Present?
  }

  /** Only a handle the service reported ready is kept in the session. */
  predicate VideoReady(s: Session) {
    s.processedVideoFile.Present? && s.processedVideoFile.value.Some? ==>
      s.processedVideoFile.value.value.state == ACTIVE
  }

  function SetDefault<T>(slot: Slot<T>, default: T): Slot<T> {
    if slot.Missing? then Present(default) else slot
  }

  /** `initialize_session_state`: each missing key gets its default (empty
      history, no video file, no video name, the current time); keys already
      present keep their values. */
  function Initialize(s: Session, now: real): (r: Session)
    ensures Initialized(r)
    ensures s.chatHistory.Present? ==> r.chatHistory == s.chatHistory
    ensures s.processedVideoFile.Present? ==> r.processedVideoFile == s.processedVideoFile
    ensures s.uploadedVideoName.Present? ==> r.uploadedVideoName == s.uploadedVideoName
    ensures s.lastActivity.Present? ==> r.lastActivity == s.lastActivity
    ensures s.chatHistory.Missing? ==> r.chatHistory.value == []
    ensures s.processedVideoFile.Missing? ==> r.processedVideoFile.value == None
    ensures s.uploadedVideoName.Missing? ==> r.uploadedVideoName.value == None
    ensures s.lastActivity.Missing? ==> r.lastActivity.value == now
  {
    Session(
      SetDefault(s.chatHistory, []),
      SetDefault(s.processedVideoFile, None),
      SetDefault(s.uploadedVideoName, None),
      SetDefault(s.lastActivity, now))
  }

  /** Initialising an initialised store changes nothing, so running the
      initialisation on every script rerun is harmless. */
  lemma InitializeIdempotent(s: Session, now: real, later: real)
    ensures Initialize(Initialize(s, now), later) == Initialize(s, now)
    ensures Initialized(s) ==> Initialize(s, later) == s
  {
  }

  /** After the store has been cleared, initialisation yields a fresh session. */
  lemma InitializeCleared(now: real)
    ensures Initialize(Cleared, now) == Fresh(now)
  {
  }

  /** Initialisation never introduces a video handle that is not ready. */
  lemma InitializeKeepsVideoReady(s: Session, now: real)
    requires VideoReady(s)
    ensures VideoReady(Initialize(s, now))
  {
  }

  /** The outcome of `check_session_timeout`: either the store was cleared and
      the script is restarted (`experimental_rerun` stops the current run), or
      the activity time is refreshed and the run goes on. */
  datatype Timeout = Expired | Touched(session: Session)

  /** `check_session_timeout` at time `now`. */
  function CheckTimeout(s: Session, now: real): (r: Timeout)
    requires s.lastActivity.Present?
    ensures r.Expired? <==> now - s.lastActivity.value > IdleLimit
    ensures r.Touched? ==> r.session == s.(lastActivity := Present(now))
  {
    if now - s.lastActivity.value > IdleLimit then Expired
    else Touched(s.(lastActivity := Present(now)))
  }

  /** A gap of exactly one hour does not expire the session: the comparison
      is strict. */
  lemma ExactLimitDoesNotExpire(s: Session)
    requires s.lastActivity.Present?
    ensures CheckTimeout(s, s.lastActivity.value + IdleLimit) == Touched(s.(lastActivity := Present(s.lastActivity.value + IdleLimit)))
  {
  }

  /** A session that was just initialised at `now` cannot expire at `now`;
      in particular the rerun after a clear always proceeds. */
  lemma FreshDoesNotExpire(now: real)
    ensures CheckTimeout(Initialize(Cleared, now), now) == Touched(Fresh(now))
  {
  }
}

=== FILE: text.dfy ===
/** The two string operations the application relies on: Python's `str.strip()`
    with no argument, and the slice `s[:n]`. */
module Text {

  /** Python's `str.isspace()` for one character: the ASCII controls TAB..CR,
      the separators U+001C..U+001F, and the Unicode space characters. */
  predicate IsSpace(c: char) {
    || c == ' '
    || '\t' <= c <= '\r'
    || '\U{1C}' <= c <= '\U{1F}'
    || c == '\U{85}'
    || c == '\U{A0}'
    || c == '\U{1680}'
    || '\U{2000}' <= c <= '\U{200A}'
    || c == '\U{2028}'
    || c == '\U{2029}'
    || c == '\U{202F}'
    || c == '\U{205F}'
    || c == '\U{3000}'
  }

  predicate AllSpace(s: string) {
    forall i :: 0 <= i < |s| ==> IsSpace(s[i])
  }

  /** Number of whitespace characters at the start of `s`. */
  function LeadingSpace(s: string): (n: nat)
    ensures n <= |s|
    ensures AllSpace(s[..n])
    ensures n < |s| ==> !IsSpace(s[n])
  {
    if |s| > 0 && IsSpace(s[0]) then
      var n := 1 + LeadingSpace(s[1..]);
      assert s[..n] == [s[0]] + s[1..][..n - 1];
      n
    else 0
  }

  /** Number of whitespace characters at the end of `s`. */
  function TrailingSpace(s: string): (n: nat)
    ensures n <= |s|
    ensures AllSpace(s[|s| - n..])
    ensures n < |s| ==> !IsSpace(s[|s| - 1 - n])
  {
    if |s| > 0 && IsSpace(s[|s| - 1]) then
      var init := s[..|s| - 1];
      var m := TrailingSpace(init);
      var tail := s[|s| - 1 - m..];
      assert tail == init[|init| - m..] + [s[|s| - 1]];
      assert forall i :: 0 <= i < |tail| ==> IsSpace(tail[i]);
      assert m < |init| ==> s[|s| - 2 - m] == init[|init| - 1 - m];
      1 + m
    else 0
  }

  /** `r` is `s` with the whitespace run `s[..k]` removed in front and a
      whitespace run removed behind. */
  predicate StrippedAt(s: string, r: string, k: nat) {
    && k + |r| <= |s|
    && r == s[k..k + |r|]
    && AllSpace(s[..k])
    && AllSpace(s[k + |r|..])
  }

  /** Python's `s.strip()`. */
  function Strip(s: string): (r: string)
    ensures |r| <= |s|
    ensures exists k :: StrippedAt(s, r, k)
    ensures r != [] ==> !IsSpace(r[0]) && !IsSpace(r[|r| - 1])
    ensures r == [] <==> AllSpace(s)
  {
    var a := LeadingSpace(s);
    if a == |s| then
      assert StrippedAt(s, [], a);
      []
    else
      var b := |s| - TrailingSpace(s);
      assert a < b;
      var r := s[a..b];
      assert StrippedAt(s, r, a);
      assert !IsSpace(s[a]);
      r
  }

  /** Stripping twice removes nothing more. */
  lemma StripIdempotent(s: string)
    ensures Strip(Strip(s)) == Strip(s)
  {
  }

  /** `Strip` is the only way to cut a whitespace run from each end of `s`
      so that what remains is empty or starts and ends with a non-space. */
  lemma StripUnique(s: string, r: string, k: nat)
    requires StrippedAt(s, r, k)
    requires r != [] ==> !IsSpace(r[0]) && !IsSpace(r[|r| - 1])
    ensures r == Strip(s)
  {
    if r == [] {
      assert s == s[..k] + s[k..];
      assert AllSpace(s);
    } else {
      var a := LeadingSpace(s);
      var n := TrailingSpace(s);
      assert s[k] == r[0];
      assert a == k;
      var j := k + |r|;
      assert s[j - 1] == r[|r| - 1];
      assert |s| - n == j;
    }
  }

  /** Whitespace added around a text is removed again by `Strip`. */
  lemma StripPadding(pre: string, text: string, post: string)
    requires AllSpace(pre) && AllSpace(post)
    ensures Strip(pre + text + post) == Strip(text)
  {
    var r := Strip(text);
    var k: nat :| StrippedAt(text, r, k);
    assert k + |r| <= |text|;
    var s := pre + text + post;
    var k' := |pre| + k;
    assert s[k'..k' + |r|] == text[k..k + |r|];
    assert s[..k'] == pre + text[..k];
    assert s[k' + |r|..] == text[k + |r|..] + post;
    assert StrippedAt(s, r, k');
    StripUnique(s, r, k');
  }

  function Min(a: nat, b: nat): nat {
    if a < b then a else b
  }

  /** Python's slice `s[:n]` for a non-negative `n`. */
  function Prefix(s: string, n: nat): (r: string)
    ensures |r| == Min(|s|, n)
    ensures r <= s
  {
    if |s| <= n then s else s[..n]
  }
}

=== FILE: web_search.dfy ===
/** `perform_web_search`: the provider's result records folded into one
    Markdown text, or the provider's exception turned into a message. */
module WebSearch {
  import opened Services
  import opened Text

  const Header: string := "Here's what I found online:\n\n"
  const SearchErrorPrefix: string := "Search error: "
  /** The number of results requested from the provider. */
  const MaxResults: nat := 3
  /** Characters of a result's body kept in its entry. */
  const BodyLimit: nat := 200

  /** `r` is the entry for `h` whose body part is `b`. */
  predicate EntryWith(h: Hit, b: string, r: string) {
    r == "- **" + h.title + "**: " + b + "...\n[Read More](" + h.href + ")\n\n"
  }

  /** The Markdown entry of one result: its title in bold, at most the first
      200 characters of its body followed by an ellipsis, and a link to its
      address. */
  function Entry(h: Hit): string {
    "- **" + h.title + "**: " + Prefix(h.body, BodyLimit) + "...\n[Read More](" + h.href + ")\n\n"
  }

  /** An entry is the fixed Markdown frame around the title, the link and a
      prefix of the body of at most 200 characters (all of it when shorter). */
  lemma EntryShape(h: Hit)
    ensures exists b :: b <= h.body && |b| == Min(|h.body|, BodyLimit) && EntryWith(h, b, Entry(h))
  {
    assert EntryWith(h, Prefix(h.body, BodyLimit), Entry(h));
  }

  /** The entries of `hits`, appended one by one in provider order. */
  function Entries(hits: seq<Hit>): string {
    if |hits| == 0 then "" else Entries(hits[..|hits| - 1]) + Entry(hits[|hits| - 1])
  }

  /** Where the entry of `hits[i]` starts, counted from the end of the header:
      the total length of the entries before it. */
  function EntryStart(hits: seq<Hit>, i: nat): nat
    requires i <= |hits|
  {
    if i == 0 then 0 else EntryStart(hits, i - 1) + |Entry(hits[i - 1])|
  }

  /** `perform_web_search(query)` against `provider`. */
  function PerformWebSearch(query: string, provider: SearchProvider): (r: string)
    ensures provider(query, MaxResults).Raised? ==>
      r == SearchErrorPrefix + provider(query, MaxResults).message
    ensures provider(query, MaxResults).Returned? ==>
      |r| >= |Header| && r[..|Header|] == Header
  {
    match provider(query, MaxResults)
    case Raised(m) => SearchErrorPrefix + m
    case Returned(hits) => Header + Entries(hits)
  }

  lemma {:induction false} EntryStartPrefix(hits: seq<Hit>, m: nat, i: nat)
    requires i <= m <= |hits|
    ensures EntryStart(hits[..m], i) == EntryStart(hits, i)
  {
    if i > 0 {
      EntryStartPrefix(hits, m, i - 1);
      assert hits[..m][i - 1] == hits[i - 1];
    }
  }

  /** The text `e` holds the entry of `hits[i]` at offset `offset + EntryStart(hits, i)`. */
  predicate EntryAt(hits: seq<Hit>, e: string, offset: nat, i: nat)
    requires i < |hits|
  {
    && offset + EntryStart(hits, i + 1) <= |e|
    && e[offset + EntryStart(hits, i)..offset + EntryStart(hits, i + 1)] == Entry(hits[i])
  }

  /** Appending text after an entry leaves it where it was. */
  lemma EntryAtAppend(hits: seq<Hit>, n: nat, e: string, tail: string, i: nat)
    requires i < n <= |hits|
    requires EntryAt(hits[..n], e, 0, i)
    ensures EntryAt(hits, e + tail, 0, i)
  {
    EntryStartPrefix(hits, n, i);
    EntryStartPrefix(hits, n, i + 1);
    assert hits[..n][i] == hits[i];
    var a, b := EntryStart(hits, i), EntryStart(hits, i + 1);
    assert (e + tail)[a..b] == e[a..b];
  }

  /** The entries text consists of exactly one entry per result, in provider
      order, and nothing else. */
  lemma {:induction false} EntriesLayout(hits: seq<Hit>)
    ensures |Entries(hits)| == EntryStart(hits, |hits|)
    ensures forall i :: 0 <= i < |hits| ==> EntryAt(hits, Entries(hits), 0, i)
  {
    if |hits| > 0 {
      var n := |hits| - 1;
      var init := hits[..n];
      EntriesLayout(init);
      EntryStartPrefix(hits, n, n);
      var last := Entry(hits[n]);
      var e := Entries(hits);
      assert e == Entries(init) + last;
      assert |Entries(init)| == EntryStart(hits, n);
      forall i | 0 <= i < |hits|
        ensures EntryAt(hits, e, 0, i)
      {
        if i < n {
          EntryAtAppend(hits, n, Entries(init), last, i);
        } else {
          assert e[EntryStart(hits, n)..] == last;
        }
      }
    }
  }

  lemma {:induction false} EntryStartMonotone(hits: seq<Hit>, i: nat, j: nat)
    requires i <= j <= |hits|
    ensures EntryStart(hits, i) <= EntryStart(hits, j)
  {
    if i < j {
      EntryStartMonotone(hits, i, j - 1);
    }
  }

  /** Putting text in front of an entry moves it by that text's length. */
  lemma EntryAtShift(hits: seq<Hit>, e: string, pre: string, i: nat)
    requires i < |hits|
    requires EntryAt(hits, e, 0, i)
    ensures EntryAt(hits, pre + e, |pre|, i)
  {
    EntryStartMonotone(hits, i, i + 1);
    var a, b := EntryStart(hits, i), EntryStart(hits, i + 1);
    assert (pre + e)[|pre| + a..|pre| + b] == e[a..b];
  }

  /** The text returned for a successful search is the header followed by one
      entry per returned result in provider order, and nothing else. */
  lemma SearchResultLayout(query: string, provider: SearchProvider)
    requires provider(query, MaxResults).Returned?
    ensures var hits := provider(query, MaxResults).value;
      var r := PerformWebSearch(query, provider);
      && |r| == |Header| + EntryStart(hits, |hits|)
      && r[..|Header|] == Header
      && forall i :: 0 <= i < |hits| ==> EntryAt(hits, r, |Header|, i)
  {
    var hits := provider(query, MaxResults).value;
    var e := Entries(hits);
    EntriesLayout(hits);
    assert PerformWebSearch(query, provider) == Header + e;
    forall i | 0 <= i < |hits|
      ensures EntryAt(hits, Header + e, |Header|, i)
    {
      EntryAtShift(hits, e, Header, i);
    }
  }
}
